=== FILE: README.md ===
# Todo store and REST API, modelled in Dafny

This project models the server side of a small personal todo service. The
store (`models.py`) keeps one table of todos, each with an id, a title, a
`completed` flag, a category and a creation time. It offers `init_db`,
`get_todos`, `add_todo`, `toggle_todo`, `update_todo` and `delete_todo`. The
REST layer (`server.py`) sends each HTTP request to one of these operations and
turns the result into a status code and a JSON body.

`models.py` writes every operation twice: once for PostgreSQL and once for
SQLite. Run one at a time, the two versions have the same effect on ordinary
inputs, so the model has a single abstract store. They differ in a few cases,
and each is described below:

- `init_db` on an old table without `category` (see the points where the model follows the code, and `Schema.InitDb` under Left out);
- strings containing a NUL character (see `Server.CreateTodo` under Left out);
- ids beyond 32 or 64 bits (see `Models.AddTodo`, `Server.UpdateTodo` and `Server.DeleteTodo` under Left out).

The store holds:

- `rows`: a map from id to row;
- `nextId`: the auto-increment sequence (`SERIAL` / `AUTOINCREMENT`), which only grows;
- `clock`: a logical clock standing in for `CURRENT_TIMESTAMP`.

The four mutating operations (`add_todo`, `toggle_todo`, `update_todo`,
`delete_todo`) are pure functions from a store to a `Step`, which holds the new
store and the operation's result: a row, `Option` of a row, or a `bool`.
`Valid` is the well-formedness every store keeps:

- every row sits under its own id;
- every id was drawn from the sequence;
- no row is stamped later than the clock.

The mutating operations, `get_todos` and every handler require `Valid`. The
mutating operations and the POST, PUT and DELETE handlers ensure it again for
the store they return. The GET handler returns no store.

`get_todos` is a method from a store and an optional category to a sequence
of rows. The SQL does not fix the order of rows stamped alike, so the method
may return any order the predicate `IsListing` allows.

`init_db` is a function from a `Database` to a `Database`. The database may
have no table yet, an old table without `category`, or the current table.
`init_db` has no precondition. It keeps `ValidDb`, the same well-formedness
stated for every shape of table, whenever the database had it.

Modules:

- `Wrappers` (`wrappers.dfy`): `Option`.
- `Models` (`models.dfy`): the table and the four mutating operations.
- `Queries` (`queries.dfy`): `get_todos`.
- `Schema` (`schema.dfy`): `init_db`.
- `Server` (`server.dfy`): the handlers, with their request bodies and responses.
- `Lifecycle` (`lifecycle.dfy`): runs of several requests.

A few points of the code's behaviour differ from what such a service is often
expected to do. The model follows the code:

- The server does not reject empty or blank titles, and it does not trim them. A POST passes its title to the store unchanged.
- `get_todos` orders rows by `created_at DESC` only. There is no tie-break on id. Rows with the same stamp may come back in any order, and `IsListing` allows every such order.
- Only the SQLite `init_db` adds a missing `category` column. The PostgreSQL `init_db` runs only `CREATE TABLE IF NOT EXISTS`, so it leaves an old table unchanged. The SQL of every later `get_todos`, `add_todo`, `toggle_todo` and `update_todo` names the `category` column (models.py:49-55, 65, 77, 89), so those calls then raise. Only `delete_todo` (models.py:99) still works. The model has no `Store` for such a table and promises nothing about it.
- Neither layer checks a category against the list of known categories.

## Model

| member | source | states |
|---|---|---|
| Models.AddTodo | models.py:61-70 | The new row has the given title, `completed = false`, and the given category or `"Family"` when it is omitted. Its id is the next one in the sequence: larger than every id in the table and every id handed out before. The sequence moves past it. Its stamp is not earlier than any existing row. The table is the old one plus this row. The SQLite branch (models.py:146-155) behaves the same. |
| Models.ToggleTodo | models.py:72-82 | A row comes back exactly when the id exists. That row has `completed` flipped. Its id, title, category and created_at are unchanged, and the table holds it. No other row, id or counter changes. An unknown id gives no row and leaves the store unchanged. |
| Models.UpdateTodo | models.py:84-94 | A row comes back exactly when the id exists. That row carries the new title. Its `completed`, category and created_at are unchanged. No other row changes. An unknown id gives no row and leaves the store unchanged. |
| Models.DeleteTodo | models.py:96-102 | The result is true exactly when the id was in the table. Afterwards the ids are the old ones minus this id. Every remaining row is unchanged, and the sequence does not move back. |
| Models.ToggleTwiceRestores | models.py:157-166 | Toggling twice restores the original store. When the id exists, the second toggle returns the original row. |
| Models.UpdateUndoneByOldTitle | models.py:168-177 | Writing the old title back undoes a title update exactly. |
| Models.DeleteUndoesAdd | models.py:146-155 | Deleting the row just inserted reports a removal and restores the old rows. The sequence stays past the removed id. |
| Models.DeleteTwiceFindsNothing | models.py:179-182 | Deleting the same id a second time reports false and changes nothing. |
| Queries.GetTodos | models.py:132-144 | The result lists every row the filter selects exactly once, and nothing else. It is ordered by created_at, newest first. |
| Queries.ListingMembers | models.py:44-59 | A row is in a listing exactly when it is in the table and passes the filter. An absent or empty category passes every row. Any other category passes only rows of exactly that category. |
| Queries.CategoryIsolation | models.py:134-138 | A listing for a non-empty category contains only rows of that category. |
| Queries.UnfilteredListsAll | models.py:139-143 | A listing with no category, or with the empty one, contains every row of the table. |
| Queries.NewerListedFirst | models.py:48-51 | Of two listed rows with different stamps, the newer one comes first. |
| Queries.AddThenList | models.py:146-155 | After an insert, take a listing filtered by the category given to `add_todo`, or by the category the row was stored with. An omitted or empty category lists every row. The listing holds the new row exactly once. The row has the given title, the given category or `"Family"` when it was omitted, and `completed = false`. If the clock advanced, the new row is first. |
| Schema.InitDb | models.py:115-130 | Afterwards a table exists. A new table starts empty, with its sequence at 1. An existing current table is not altered. PostgreSQL leaves any existing table as it is. SQLite keeps every row of an old table under its id, with id, title, completed and created_at unchanged and category `'Family'`. It carries the old table's id sequence over unchanged (see `Schema.InitDb` under Left out). Well-formedness is kept. |
| Schema.InitDbIdempotent | models.py:28-42 | Running `init_db` a second time changes nothing, on either backend. |
| Schema.SqliteInitGivesStore | models.py:119-130 | On SQLite, any well-formed database has a current, well-formed table after `init_db`. |
| Server.CategoryOf | server.py:23-25 | A create body without a category stands for `"Family"`. One with a category stands for that category. |
| Server.ListTodos | server.py:38-40 | GET always answers 200. The body is a listing of the store for the category as given, and it may be empty. |
| Server.CreateTodo | server.py:43-45 | POST answers 201 with the row `add_todo` created. The title and the defaulted category are passed through unchanged, with no trimming or emptiness check. The new row is not completed, and its id is new. |
| Server.UpdateTodo | server.py:48-56 | PUT answers 404 "Todo not found" exactly when the id is unknown, and then the store is unchanged. With a title present, it does `update_todo` and answers 200 with the updated row. Otherwise it does `toggle_todo` and answers 200 with the toggled row. |
| Server.DeleteTodo | server.py:59-63 | DELETE answers 200 `{"ok": true}` exactly when the id existed, and 404 exactly when it did not. Afterwards the id is gone. The store is the one `delete_todo` leaves. |
| Server.CompletedFieldIgnored | server.py:28-30 | A PUT body with only `completed` toggles the row, whatever the value. It has the same effect and the same answer as an empty body. |
| Lifecycle.Apply | server.py:43-63 | No request moves the id sequence backwards, and every request keeps the store well-formed. |
| Lifecycle.SpentIdStaysGone | models.py:120 | An id that was handed out and is no longer in the table never returns, whatever requests follow. |
| Lifecycle.DeleteIsFinal | server.py:54-63 | After a successful DELETE of an id, and any requests after it, a PUT or DELETE of that id answers 404. No listing shows a row with that id. |

## Left out

- Database drivers and connections are not modelled: psycopg2/sqlite3 calls, connection handling, `PRAGMA journal_mode=WAL`, and the `DATABASE_URL` backend switch made at import time. The store models only the effect of the SQL statements.
- The backend is an explicit `Backend` parameter only in `Schema.InitDb`. Every other operation is modelled once for both backends. The cases where the backends differ are the `Schema.InitDb`, NUL-string and id-width lines below.
- Concurrency and the atomicity of a single `UPDATE` are not modelled. The model is sequential.
- Real timestamps are not modelled. `CURRENT_TIMESTAMP` is a logical clock. Each insert advances it by a caller-given `tick`, and a tick of 0 stands for two inserts within one timestamp.
- Value representations are not modelled: SQLite returns `completed` as 0/1 and PostgreSQL returns a boolean, and `created_at` is text or a datetime. Rows are records of the model's own types.
- Storage failures (connection or I/O errors) are not modelled. The code has no error path for them; they surface as exceptions from the driver.
- FastAPI and pydantic machinery is not modelled: request parsing, 422 answers for malformed bodies, CORS middleware (server.py:13-18), the static index route (server.py:33-35), and the `init_db` call made at import time (server.py:9).
- The desktop and terminal clients (`gui.py`, `tui.py`) and the launcher (`todo.py`) are not modelled. They hold no server-side logic.
- `CATEGORIES` (models.py:6) is not modelled, because neither the store nor the server consults it.
- Models.AddTodo: ids are unbounded integers, so an insert always succeeds. In the code, `id SERIAL` (models.py:34) is a 32-bit sequence, and `nextval` fails past 2147483647. SQLite `AUTOINCREMENT` (models.py:120) fails at the 64-bit maximum. In both cases `add_todo` raises. The model does not have that failure, because no realistic table reaches either bound.
- Server.UpdateTodo: the id is an unbounded integer. On SQLite, a `todo_id` outside 64 bits makes the driver raise when it binds the parameter (models.py:160, 171), so the request fails with a server error instead of the 404 the model promises. On PostgreSQL, psycopg2 writes such an id into the SQL text as a literal, nothing matches, and the model's 404 is right.
- Server.DeleteTodo: as for `Server.UpdateTodo`, a `todo_id` outside 64 bits fails in the SQLite driver when it binds the parameter (models.py:181), instead of answering 404. PostgreSQL answers 404 as the model does.
- Schema.InitDb: the code never shows how an old table without `category` was created. The model assumes its `id` was already `AUTOINCREMENT` and carries its id sequence over, because `ALTER TABLE ADD COLUMN` (models.py:130) does not change the `id` column. If the old table used a plain `INTEGER PRIMARY KEY`, SQLite would reuse the largest deleted id after the migration. `Lifecycle.SpentIdStaysGone` and `Lifecycle.DeleteIsFinal` would then fail for stores that came from such a table.
- Server.CreateTodo, Server.ListTodos and Server.UpdateTodo: strings containing a NUL character (U+0000) are treated like any other string. On PostgreSQL, psycopg2 refuses such a string parameter before the statement runs. That covers the title and category of `add_todo` (models.py:64-67), the title of `update_todo` (models.py:87-91) and the category filter of `get_todos` (models.py:48-51). So on PostgreSQL these requests fail with a server error instead of the 201 or 200 the model promises. The SQLite branch accepts these strings, as the model does.
- Server.ListTodos: on PostgreSQL, a category filter containing a NUL character fails in the driver with a server error instead of the promised 200; see the `Server.CreateTodo` line above.
- Models.AddTodo and Queries.AddThenList: both rest on a clock that never goes back. In the model, a new row's stamp is never below an existing row's, and with `tick > 0` the new row is listed first. In the code, `created_at` comes from the wall clock through `CURRENT_TIMESTAMP` (models.py:38, 124). The PostgreSQL column is `TIMESTAMP` without time zone, so the stamp is the session's local time, which goes back an hour when daylight-saving time ends. A correction of the system clock does the same on either backend. A row inserted after such a step sorts below older rows under `ORDER BY created_at DESC` (models.py:50, 137), so it is not listed first.

=== FILE: lifecycle.dfy ===
/** Sequences of API requests against one store: what a DELETE leaves behind
    for every later request. */
module Lifecycle {
  import opened Wrappers
  import opened Models
  import Queries
  import Server

  /** One API call; a POST carries the clock advance of its insert. */
  datatype Request =
    | Post(body: Server.TodoCreate, tick: nat)
    | Put(id: int, update: Server.TodoUpdate)
    | Remove(id: int)
    | Get(category: Option<string>)

  /** The store after one request; a GET reads and changes nothing. */
  function Apply(s: Store, req: Request): (s': Store)
    requires Valid(s)
    ensures Valid(s')
    ensures s.nextId <= s'.nextId
  {
    match req
    case Post(body, tick) => Server.CreateTodo(s, body, tick).store
    case Put(id, update) => Server.UpdateTodo(s, id, update).store
    case Remove(id) => Server.DeleteTodo(s, id).store
    case Get(_) => s
  }

  /** The store after a run of requests, in order. */
  function Replay(s: Store, reqs: seq<Request>): (s': Store)
    requires Valid(s)
    ensures Valid(s')
    decreases |reqs|
  {
    if reqs == [] then s else Replay(Apply(s, reqs[0]), reqs[1..])
  }

  /** An id that was handed out and is no longer in the table never comes
      back, whatever requests follow: inserts draw newer ids, and nothing
      else creates rows. */
  lemma {:induction false} SpentIdStaysGone(s: Store, id: int, reqs: seq<Request>)
    requires Valid(s)
    requires id < s.nextId && id !in s.rows
    ensures id < Replay(s, reqs).nextId
    ensures id !in Replay(s, reqs).rows
    decreases |reqs|
  {
    if reqs != [] {
      var next := Apply(s, reqs[0]);
      assert id !in next.rows;
      SpentIdStaysGone(next, id, reqs[1..]);
    }
  }

  /** After a successful DELETE of an id, whatever happens next, a PUT or a
      DELETE of that id answers 404 and no listing shows a row with it. */
  lemma DeleteIsFinal(s: Store, id: int, reqs: seq<Request>, update: Server.TodoUpdate,
                      category: Option<string>, ts: seq<Todo>)
    requires Valid(s)
    requires Server.DeleteTodo(s, id).result.status == 200
    requires Queries.IsListing(Replay(Server.DeleteTodo(s, id).store, reqs), category, ts)
    ensures var later := Replay(Server.DeleteTodo(s, id).store, reqs);
      && Server.UpdateTodo(later, id, update).result == Server.NotFound
      && Server.DeleteTodo(later, id).result == Server.NotFound
      && forall t :: t in ts ==> t.id != id
  {
    var gone := Server.DeleteTodo(s, id).store;
    SpentIdStaysGone(gone, id, reqs);
    var later := Replay(gone, reqs);
    forall t | t in ts
      ensures t.id != id
    {
      Queries.ListingMembers(later, category, ts, t);
      Queries.ValueHasKey(later.rows, t);
    }
  }
}

=== FILE: models.dfy ===
/** The todo store: one table of rows, shared by the PostgreSQL and the SQLite
    backends, whose SQL statements have the same sequential effect. The table
    is a map from id to row; `nextId` is the auto-increment sequence (SERIAL /
    AUTOINCREMENT), which only grows, so an id is never handed out twice; and
    `clock` is the last value CURRENT_TIMESTAMP produced. */
module Models {
  import opened Wrappers

  /** The schema default of the `category` column and of `add_todo`. */
  const DefaultCategory: string := "Family"

  datatype Todo = Todo(id: int, title: string, completed: bool, category: string, createdAt: int)

  datatype Store = Store(rows: map<int, Todo>, nextId: int, clock: int)

  /** A store operation's outcome: the table after the statement, and what the
      operation returns to its caller. */
  datatype Step<T> = Step(store: Store, result: T)

  /** Every row sits under its own id, every id was drawn from the sequence,
      and no row is stamped later than the clock. */
  ghost predicate Valid(s: Store) {
    && 1 <= s.nextId
    && forall id :: id in s.rows ==>
         && 1 <= id < s.nextId
         && s.rows[id].id == id
         && s.rows[id].createdAt <= s.clock
  }

  /** The table of a fresh database: no rows, the sequence at its start. */
  function EmptyStore(): (s: Store)
    ensures Valid(s)
    ensures s.rows == map[]
  {
    Store(map[], 1, 0)
  }

  /** `s'` differs from `s` at most in the row with this id: same ids, same
      sequence, same clock, every other row identical. */
  ghost predicate OnlyRowChanged(s: Store, s': Store, id: int) {
    && s'.rows.Keys == s.rows.Keys
    && s'.nextId == s.nextId
    && s'.clock == s.clock
    && forall k :: k in s.rows && k != id ==> s'.rows[k] == s.rows[k]
  }

  /** INSERT with the column defaults: the new row gets the next id of the
      sequence, `completed = false`, the given category (`"Family"` when it is
      omitted), and a timestamp `tick` units after the clock (0 models two
      inserts within the same timestamp). The row is returned as stored. */
  function AddTodo(s: Store, title: string, category: Option<string>, tick: nat): (r: Step<Todo>)
    requires Valid(s)
    ensures Valid(r.store)
    ensures r.result.title == title && !r.result.completed
    ensures r.result.category == (if category.Some? then category.value else DefaultCategory)
    ensures r.result.id !in s.rows
    ensures s.nextId <= r.result.id < r.store.nextId
    ensures forall id :: id in s.rows ==> id < r.result.id
    ensures forall id :: id in s.rows ==> s.rows[id].createdAt <= r.result.createdAt
    ensures r.store.rows == s.rows[r.result.id := r.result]
  {
    var row := Todo(s.nextId, title, false, ValueOr(category, DefaultCategory), s.clock + tick);
    Step(Store(s.rows[row.id := row], s.nextId + 1, row.createdAt), row)
  }

  /** `UPDATE … SET completed = NOT completed WHERE id = …`, then the row is
      read back; no row means no result and no change. */
  function ToggleTodo(s: Store, id: int): (r: Step<Option<Todo>>)
    requires Valid(s)
    ensures Valid(r.store)
    ensures r.result.Some? <==> id in s.rows
    ensures id !in s.rows ==> r.store == s
    ensures id in s.rows ==>
      && OnlyRowChanged(s, r.store, id)
      && r.store.rows[id] == r.result.value
      && r.result.value.id == id
      && r.result.value.completed == !s.rows[id].completed
      && r.result.value.title == s.rows[id].title
      && r.result.value.category == s.rows[id].category
      && r.result.value.createdAt == s.rows[id].createdAt
  {
    if id in s.rows then
      var row := s.rows[id].(completed := !s.rows[id].completed);
      Step(s.(rows := s.rows[id := row]), Some(row))
    else
      Step(s, None)
  }

  /** `UPDATE … SET title = … WHERE id = …`, then the row is read back. */
  function UpdateTodo(s: Store, id: int, title: string): (r: Step<Option<Todo>>)
    requires Valid(s)
    ensures Valid(r.store)
    ensures r.result.Some? <==> id in s.rows
    ensures id !in s.rows ==> r.store == s
    ensures id in s.rows ==>
      && OnlyRowChanged(s, r.store, id)
      && r.store.rows[id] == r.result.value
      && r.result.value.id == id
      && r.result.value.title == title
      && r.result.value.completed == s.rows[id].completed
      && r.result.value.category == s.rows[id].category
      && r.result.value.createdAt == s.rows[id].createdAt
  {
    if id in s.rows then
      var row := s.rows[id].(title := title);
      Step(s.(rows := s.rows[id := row]), Some(row))
    else
      Step(s, None)
  }

  /** `DELETE … WHERE id = …`, reporting whether the row count was positive. */
  function DeleteTodo(s: Store, id: int): (r: Step<bool>)
    requires Valid(s)
    ensures Valid(r.store)
    ensures r.result <==> id in s.rows
    ensures r.store.rows.Keys == s.rows.Keys - {id}
    ensures forall k :: k in r.store.rows ==> r.store.rows[k] == s.rows[k]
    ensures r.store.nextId == s.nextId && r.store.clock == s.clock
  {
    Step(s.(rows := s.rows - {id}), id in s.rows)
  }

  /** Toggling a row twice gives back the table it started from, and the
      second toggle returns the row as it originally was. */
  lemma ToggleTwiceRestores(s: Store, id: int)
    requires Valid(s)
    ensures ToggleTodo(ToggleTodo(s, id).store, id).store == s
    ensures id in s.rows ==> ToggleTodo(ToggleTodo(s, id).store, id).result == Some(s.rows[id])
  {
  }

  /** Writing a row's old title back undoes a title update. */
  lemma UpdateUndoneByOldTitle(s: Store, id: int, title: string)
    requires Valid(s) && id in s.rows
    ensures UpdateTodo(UpdateTodo(s, id, title).store, id, s.rows[id].title).store == s
  {
  }

  /** Deleting the row just added reports a removal and gives back the rows
      from before the insert; the sequence does not go back, so that id is
      spent. */
  lemma DeleteUndoesAdd(s: Store, title: string, category: Option<string>, tick: nat)
    requires Valid(s)
    ensures var added := AddTodo(s, title, category, tick);
      && DeleteTodo(added.store, added.result.id).result
      && DeleteTodo(added.store, added.result.id).store.rows == s.rows
      && DeleteTodo(added.store, added.result.id).store.nextId > added.result.id
  {
  }

  /** A second delete of the same id removes nothing and changes nothing. */
  lemma DeleteTwiceFindsNothing(s: Store, id: int)
    requires Valid(s)
    ensures var once := DeleteTodo(s, id).store;
      !DeleteTodo(once, id).result && DeleteTodo(once, id).store == once
  {
  }
}

=== FILE: queries.dfy ===
/** `get_todos`: every row, or the rows of one category, newest first. The
    SQL orders by `created_at DESC` alone, so rows stamped alike may come in
    any order; the listing below picks the rows in an unspecified order and
    places each after the rows at least as new. */
module Queries {
  import opened Wrappers
  import opened Models

  /** The filter of `get_todos`: a category that is absent or empty (falsy)
      selects every row, any other selects the rows of exactly that category. */
  predicate Matches(category: Option<string>, t: Todo) {
    match category
    case None => true
    case Some(c) => c == "" || t.category == c
  }

  /** The rows among `ids` that the filter selects. */
  ghost function SelectedAmong(s: Store, category: Option<string>, ids: set<int>): (picked: set<Todo>) {
    set id | id in ids && id in s.rows && Matches(category, s.rows[id]) :: s.rows[id]
  }

  /** The rows the query selects. */
  ghost function Selected(s: Store, category: Option<string>): (picked: set<Todo>) {
    SelectedAmong(s, category, s.rows.Keys)
  }

  /** `ORDER BY created_at DESC`. */
  predicate NewestFirst(ts: seq<Todo>) {
    forall i, j :: 0 <= i < j < |ts| ==> ts[i].createdAt >= ts[j].createdAt
  }

  /** `ts` is an answer the query may give: each selected row exactly once,
      nothing else, newest first. */
  ghost predicate IsListing(s: Store, category: Option<string>, ts: seq<Todo>) {
    NewestFirst(ts) && multiset(ts) == multiset(Selected(s, category))
  }

  /** Where a row stamped `stamp` goes in a newest-first list: after every row
      at least as new, before every older one. */
  method InsertionPoint(ts: seq<Todo>, stamp: int) returns (k: nat)
    requires NewestFirst(ts)
    ensures k <= |ts|
    ensures forall i :: 0 <= i < k ==> ts[i].createdAt >= stamp
    ensures forall i :: k <= i < |ts| ==> ts[i].createdAt < stamp
  {
    k := 0;
    while k < |ts| && ts[k].createdAt >= stamp
      invariant k <= |ts|
      invariant forall i :: 0 <= i < k ==> ts[i].createdAt >= stamp
    {
      k := k + 1;
    }
  }

  /** Adding one more id to those already looked at adds its row to the
      selection when the filter takes it; the row was not selected before. */
  lemma SelectOneMore(s: Store, category: Option<string>, seen: set<int>, id: int)
    requires Valid(s)
    requires id in s.rows && id !in seen
    ensures multiset(SelectedAmong(s, category, seen + {id})) ==
      if Matches(category, s.rows[id]) then multiset(SelectedAmong(s, category, seen)) + multiset{s.rows[id]}
      else multiset(SelectedAmong(s, category, seen))
  {
  }

  /** Putting a row at its insertion point keeps a list newest first and adds
      just that row. */
  lemma InsertKeepsOrder(ts: seq<Todo>, k: nat, t: Todo)
    requires NewestFirst(ts) && k <= |ts|
    requires forall i :: 0 <= i < k ==> ts[i].createdAt >= t.createdAt
    requires forall i :: k <= i < |ts| ==> ts[i].createdAt < t.createdAt
    ensures NewestFirst(ts[..k] + [t] + ts[k..])
    ensures multiset(ts[..k] + [t] + ts[k..]) == multiset(ts) + multiset{t}
  {
    assert ts == ts[..k] + ts[k..];
  }

  /** A non-empty set has a member. */
  lemma SomeMember(ids: set<int>)
    requires ids != {}
    ensures exists id :: id in ids
  {
    if forall id :: id !in ids {
      assert false;
    }
  }

  /** A value of a map is stored under some key. */
  lemma ValueHasKey(m: map<int, Todo>, t: Todo)
    requires t in m.Values
    ensures exists id :: id in m && m[id] == t
  {
    if forall id :: id in m ==> m[id] != t {
      assert false;
    }
  }

  /** The query: the selected rows, each once, newest first. */
  method GetTodos(s: Store, category: Option<string>) returns (ts: seq<Todo>)
    requires Valid(s)
    ensures IsListing(s, category, ts)
  {
    ts := [];
    var pending := s.rows.Keys;
    ghost var seen: set<int> := {};
    while pending != {}
      invariant pending !! seen && pending + seen == s.rows.Keys
      invariant NewestFirst(ts)
      invariant multiset(ts) == multiset(SelectedAmong(s, category, seen))
      decreases pending
    {
      SomeMember(pending);
      var id :| id in pending;
      var t := s.rows[id];
      SelectOneMore(s, category, seen, id);
      if Matches(category, t) {
        var k := InsertionPoint(ts, t.createdAt);
        InsertKeepsOrder(ts, k, t);
        ts := ts[..k] + [t] + ts[k..];
      }
      pending := pending - {id};
      seen := seen + {id};
    }
    assert seen == s.rows.Keys;
  }

  /** A listing contains exactly the selected rows. */
  lemma ListingMembers(s: Store, category: Option<string>, ts: seq<Todo>, t: Todo)
    requires IsListing(s, category, ts)
    ensures t in ts <==> t in s.rows.Values && Matches(category, t)
  {
    assert t in ts <==> t in multiset(ts);
    if t in s.rows.Values {
      ValueHasKey(s.rows, t);
      var id :| id in s.rows && s.rows[id] == t;
      assert id in s.rows.Keys;
    }
  }

  /** A non-empty category never lists a row of another category. */
  lemma CategoryIsolation(s: Store, c: string, ts: seq<Todo>)
    requires IsListing(s, Some(c), ts) && c != ""
    ensures forall t :: t in ts ==> t.category == c
  {
    forall t | t in ts
      ensures t.category == c
    {
      ListingMembers(s, Some(c), ts, t);
    }
  }

  /** Without a category (or with the empty one), the listing is every row. */
  lemma UnfilteredListsAll(s: Store, category: Option<string>, ts: seq<Todo>)
    requires category == None || category == Some("")
    requires IsListing(s, category, ts)
    ensures forall id :: id in s.rows ==> s.rows[id] in ts
  {
    forall id | id in s.rows
      ensures s.rows[id] in ts
    {
      ListingMembers(s, category, ts, s.rows[id]);
    }
  }

  /** Of two listed rows with different stamps, the newer comes first. */
  lemma NewerListedFirst(s: Store, category: Option<string>, ts: seq<Todo>, i: int, j: int)
    requires IsListing(s, category, ts)
    requires 0 <= i < |ts| && 0 <= j < |ts|
    requires ts[i].createdAt > ts[j].createdAt
    ensures i < j
  {
  }

  /** After an insert, a listing by the category the row was given (absent or
      empty included, which list every row) or by the category it was stored
      with holds the new row exactly once, with the given title, the given or
      default category and `completed = false`; stamped later than every older
      row, it comes first. */
  lemma AddThenList(s: Store, title: string, category: Option<string>, tick: nat,
                    query: Option<string>, ts: seq<Todo>)
    requires Valid(s)
    requires query == category || query == Some(ValueOr(category, DefaultCategory))
    requires IsListing(AddTodo(s, title, category, tick).store, query, ts)
    ensures var row := AddTodo(s, title, category, tick).result;
      && multiset(ts)[row] == 1
      && row.title == title && !row.completed
      && row.category == (if category.Some? then category.value else DefaultCategory)
      && (tick > 0 ==> ts[0] == row)
  {
    var added := AddTodo(s, title, category, tick);
    var row := added.result;
    assert row.id in added.store.rows;
    assert Matches(query, row);
    ListingMembers(added.store, query, ts, row);
    assert multiset(ts)[row] == multiset(Selected(added.store, query))[row];
    if tick > 0 {
      assert ts[0] in ts;
      ListingMembers(added.store, query, ts, ts[0]);
      if ts[0] != row {
        ValueHasKey(added.store.rows, ts[0]);
        var id :| id in added.store.rows && added.store.rows[id] == ts[0];
        assert id in s.rows;
        assert ts[0].createdAt <= s.clock < row.createdAt;
        var j :| 0 <= j < |ts| && ts[j] == row;
        NewerListedFirst(added.store, query, ts, j, 0);
      }
    }
  }
}

=== FILE: schema.dfy ===
/** `init_db`: make sure the `todos` table exists. On SQLite a table created
    before categories existed is also given the `category` column, filled
    with `'Family'`; the PostgreSQL branch only runs
    `CREATE TABLE IF NOT EXISTS`, which leaves any existing table as it is. */
module Schema {
  import opened Models

  datatype Backend = Postgres | Sqlite

  /** A row of a table that has no `category` column. */
  datatype LegacyRow = LegacyRow(id: int, title: string, completed: bool, createdAt: int)

  /** What the database holds before `init_db`: no table, a table without the
      `category` column, or the current table. */
  datatype Database =
    | NoTable
    | LegacyTable(rows: map<int, LegacyRow>, nextId: int, clock: int)
    | TodoTable(store: Store)

  /** The same well-formedness as `Models.Valid`, for every shape of table. */
  ghost predicate ValidDb(db: Database) {
    match db
    case NoTable => true
    case LegacyTable(rows, nextId, clock) =>
      && 1 <= nextId
      && forall id :: id in rows ==>
           1 <= id < nextId && rows[id].id == id && rows[id].createdAt <= clock
    case TodoTable(s) => Valid(s)
  }

  /** A legacy row as it reads once the column exists: its column default. */
  function WithDefaultCategory(row: LegacyRow): (t: Todo) {
    Todo(row.id, row.title, row.completed, DefaultCategory, row.createdAt)
  }

  function InitDb(db: Database, backend: Backend): (r: Database)
    ensures ValidDb(db) ==> ValidDb(r)
    // a table exists afterwards
    ensures !r.NoTable?
    // a fresh table is empty and its sequence starts at 1
    ensures db.NoTable? ==> r == TodoTable(EmptyStore())
    // an existing current table is neither emptied nor altered
    ensures db.TodoTable? ==> r == db
    // PostgreSQL never touches an existing table, even an old one
    ensures backend == Postgres && !db.NoTable? ==> r == db
    // SQLite keeps every legacy row and its id sequence, with category 'Family'
    ensures backend == Sqlite && db.LegacyTable? ==>
      && r.TodoTable?
      && r.store.rows.Keys == db.rows.Keys
      && (forall id :: id in db.rows ==>
            && r.store.rows[id].category == DefaultCategory
            && r.store.rows[id].id == db.rows[id].id
            && r.store.rows[id].title == db.rows[id].title
            && r.store.rows[id].completed == db.rows[id].completed
            && r.store.rows[id].createdAt == db.rows[id].createdAt)
      && r.store.nextId == db.nextId
      && r.store.clock == db.clock
  {
    match db
    case NoTable => TodoTable(EmptyStore())
    case LegacyTable(rows, nextId, clock) =>
      if backend == Sqlite then
        TodoTable(Store(map id | id in rows :: WithDefaultCategory(rows[id]), nextId, clock))
      else
        db
    case TodoTable(_) => db
  }

  /** Running `init_db` again, as every server start does, changes nothing. */
  lemma InitDbIdempotent(db: Database, backend: Backend)
    ensures InitDb(InitDb(db, backend), backend) == InitDb(db, backend)
  {
  }

  /** On SQLite, once `init_db` has run the store operations have a current,
      well-formed table to work on. */
  lemma SqliteInitGivesStore(db: Database)
    requires ValidDb(db)
    ensures InitDb(db, Sqlite).TodoTable?
    ensures Valid(InitDb(db, Sqlite).store)
  {
  }
}

=== FILE: server.dfy ===
/** The REST handlers of the todo API: each request is dispatched to one store
    operation and its result is turned into a status and a JSON body. */
module Server {
  import opened Wrappers
  import opened Models
  import Queries

  /** POST body; an omitted `category` reads as `"Family"`. */
  datatype TodoCreate = TodoCreate(title: string, category: Option<string>)

  /** PUT body; both fields are optional. */
  datatype TodoUpdate = TodoUpdate(title: Option<string>, completed: Option<bool>)

  datatype Body =
    | TodoJson(todo: Todo)
    | TodoArray(todos: seq<Todo>)
    | OkJson                      // {"ok": true}
    | ErrorJson(detail: string)   // {"detail": ...}

  datatype Response = Response(status: int, body: Body)

  /** The 404 raised by PUT and DELETE for an unknown id. */
  const NotFound: Response := Response(404, ErrorJson("Todo not found"))

  /** The category a POST body stands for once its default is applied. */
  function CategoryOf(body: TodoCreate): (c: string)
    ensures body.category.None? ==> c == DefaultCategory
    ensures body.category.Some? ==> c == body.category.value
  {
    ValueOr(body.category, DefaultCategory)
  }

  /** GET /api/todos: always 200 with the listing, possibly empty. */
  method ListTodos(s: Store, category: Option<string>) returns (r: Response)
    requires Valid(s)
    ensures r.status == 200 && r.body.TodoArray?
    ensures Queries.IsListing(s, category, r.body.todos)
  {
    var todos := Queries.GetTodos(s, category);
    r := Response(200, TodoArray(todos));
  }

  /** POST /api/todos: the title and category go to the store as given, with
      no trimming or emptiness check, and the created row comes back as 201. */
  function CreateTodo(s: Store, body: TodoCreate, tick: nat): (r: Step<Response>)
    requires Valid(s)
    ensures Valid(r.store)
    ensures r.result.status == 201 && r.result.body.TodoJson?
    ensures var added := Models.AddTodo(s, body.title, Some(CategoryOf(body)), tick);
      r.store == added.store && r.result.body.todo == added.result
    ensures r.result.body.todo.title == body.title
    ensures r.result.body.todo.category == CategoryOf(body)
    ensures !r.result.body.todo.completed
    ensures r.result.body.todo.id !in s.rows
  {
    var added := Models.AddTodo(s, body.title, Some(CategoryOf(body)), tick);
    Step(added.store, Response(201, TodoJson(added.result)))
  }

  /** PUT /api/todos/{id}: a title renames the row, no title toggles it (the
      `completed` field is ignored); an unknown id is a 404 with no effect. */
  function UpdateTodo(s: Store, id: int, body: TodoUpdate): (r: Step<Response>)
    requires Valid(s)
    ensures Valid(r.store)
    ensures r.result == NotFound <==> id !in s.rows
    ensures id !in s.rows ==> r.store == s
    ensures body.title.Some? ==>
      var renamed := Models.UpdateTodo(s, id, body.title.value);
      r.store == renamed.store && (id in s.rows ==> r.result == Response(200, TodoJson(renamed.result.value)))
    ensures body.title.None? ==>
      var toggled := Models.ToggleTodo(s, id);
      r.store == toggled.store && (id in s.rows ==> r.result == Response(200, TodoJson(toggled.result.value)))
  {
    var result := if body.title.Some? then Models.UpdateTodo(s, id, body.title.value)
                  else Models.ToggleTodo(s, id);
    if result.result.None? then Step(result.store, NotFound)
    else Step(result.store, Response(200, TodoJson(result.result.value)))
  }

  /** DELETE /api/todos/{id}: `{"ok": true}` when a row went away, else 404. */
  function DeleteTodo(s: Store, id: int): (r: Step<Response>)
    requires Valid(s)
    ensures Valid(r.store)
    ensures r.result == Response(200, OkJson) <==> id in s.rows
    ensures r.result == NotFound <==> id !in s.rows
    ensures r.store == Models.DeleteTodo(s, id).store
    ensures id !in r.store.rows
  {
    var removed := Models.DeleteTodo(s, id);
    if removed.result then Step(removed.store, Response(200, OkJson))
    else Step(removed.store, NotFound)
  }

  /** The `completed` field of a PUT body makes no difference: a body with
      only `{"completed": true}` toggles the row like an empty body. */
  lemma CompletedFieldIgnored(s: Store, id: int, done: bool)
    requires Valid(s)
    ensures UpdateTodo(s, id, TodoUpdate(None, Some(done))).store == Models.ToggleTodo(s, id).store
    ensures UpdateTodo(s, id, TodoUpdate(None, Some(done))) == UpdateTodo(s, id, TodoUpdate(None, None))
  {
  }
}

=== FILE: wrappers.dfy ===
/** `Option` stands for Python's "a value or `None`": a row the store may not
    find, or a request field the client may leave out. */
module Wrappers {

  datatype Option<T> = None | Some(value: T)

  /** The value held by `o`, falling back to `fallback` when `o` holds none:
      how a Python default argument fills an omitted field. */
  function ValueOr<T>(o: Option<T>, fallback: T): (v: T)
    ensures o.Some? ==> v == o.value
    ensures o.None? ==> v == fallback
  {
    if o.None? then fallback else o.value
  }
}
